=== FILE: README.md ===
# Missing-value handler of the EDA tool, in Dafny

The EDA tool is a Streamlit page. A user uploads a CSV file and gets
summaries and plots of it. Nearly all of its work is done by pandas and
seaborn. This project models the tool's own logic:

- the **"Handle Missing Values"** action (`app.py`, lines 72-106). The
  "Fill or Drop?" radio button and the text input "Fill value or method
  (mean/median)" select one of three transformations of the loaded frame.
  Each transformation produces an ordered audit trail:
  - **statistic fill**: the mean or median of each column that has one
    fills that column's missing cells, with one message per missing cell
    of such a column (a NaN statistic reports its cells but leaves them
    missing);
  - **literal fill**: the typed text fills the missing cells, with one
    message per filled cell of the first column only (see Findings);
  - **drop**: the rows holding a missing cell are removed, with one message
    per removed row.

  The action ends by showing the missing count of every column.
- the **column lists** built right after loading (`numerical_col`,
  `categorical_col`, lines 34-35) and the **plot guards** that use them
  (lines 112-115, 125, 139, 149).

A frame (`DataFrame.Frame`) is a sequence of column names, a sequence of
index labels and a sequence of rows of `Option<Cell>`. `None` is the
missing marker. A statistic is `Finite(v)` or `NaN`: pandas gives `NaN` as
the mean or median of a numeric column that has no present value, so the
model has a value for that case too. Filling with `NaN` emits the messages
but leaves the cells missing, as `fillna(NaN)` does. An audit message is a
structured `Resolver.Entry`: `Filled(index, column, replacement)` or
`RowDropped(index)`. It is not a formatted string.

Modules: `DataFrame` (frame.dfy), `Resolver` (resolver.dfy, the three
transformations and the dispatch), `ResolverProofs` (resolver_proofs.dfy),
`Handler` (handler.dfy, the whole action), `Columns` (columns.dfy).

The statistic fill and the intended literal fill share one column loop,
`Resolver.PerColumnFill`. `ResolverProofs.PerColumnFillMeaning` proves that
the loop equals a reference that reads everything off the input frame.
The loop computes each column's messages on the partly filled frame, the
reference on the original input, and they agree. Every property of the
statistic fill is derived from that lemma.

## Model

| member | source | states |
|---|---|---|
| `Resolver.Dispatch` | app.py:76-78 | the text selects a statistic exactly when it is "mean" or "median", and "mean" selects the mean; every other text, the empty one included, is the literal itself, so "mean" and "median" can never be literals |
| `DataFrame.Where` | app.py:81 | the row selection of a mask lists exactly the positions where the mask holds, each in range, in strictly increasing order |
| `DataFrame.WhereCounts` | app.py:106 | the number of selected rows equals the mask's count of true values (the `isnull().sum()` count) |
| `DataFrame.MissingCounts` | app.py:106 | one count per column, none above the row count, and a column counts zero exactly when none of its cells is missing |
| `Resolver.ColumnEntries` | app.py:81-83 | a column's messages number its missing count, and each fills that column with the given replacement; the labels are in `ResolverProofs.ColumnEntriesMeaning` |
| `Resolver.PerColumnFill` | app.py:79-84 | shape only (columns and labels kept); its meaning is `ResolverProofs.PerColumnFillMeaning` |
| `Resolver.StatFill` | app.py:77-85 | shape only (columns and labels kept); its meaning is `ResolverProofs.StatFillFrame` and `ResolverProofs.StatFillAudit` |
| `Resolver.LiteralLoop` | app.py:88-92 | shape only (columns and labels kept); its meaning is `ResolverProofs.LiteralFillAsWritten` |
| `Resolver.LiteralFill` | app.py:88-92 | shape only (columns and labels kept); its meaning is `ResolverProofs.LiteralFillAsWritten` and `ResolverProofs.LiteralFillFrame` |
| `Resolver.LiteralFillPerColumn` | app.py:88-92 | shape only (columns and labels kept); its meaning is `ResolverProofs.LiteralFillPerColumnMeaning` |
| `Resolver.DropRows` | app.py:98-102 | shape only (columns kept); its meaning is `ResolverProofs.DropFrame` and `ResolverProofs.DropAudit` |
| `ResolverProofs.PerColumnFillMeaning` | app.py:79-84 | the column loop, which computes each column's messages on the frame as partly filled so far, ends in the frame where every planned column of the input is filled, and its audit is the messages of each planned column read off the input, concatenated in declared column order |
| `ResolverProofs.ColumnEntriesMeaning` | app.py:81-83 | a column's messages: as many as the column's missing count in the input, all naming that column and its replacement, one for every missing cell labelled with that row's index label, in strictly increasing label order when the labels increase |
| `ResolverProofs.StatFillFrame` | app.py:79-84 | after a statistic fill, a missing cell of a column whose name has a non-NaN statistic holds that statistic; every other cell is unchanged, and so are the row count and the index labels |
| `ResolverProofs.StatFillAudit` | app.py:79-83 | the statistic-fill audit visits columns in declared order; a column with a statistic contributes its messages on the input, and a column without one contributes nothing |
| `ResolverProofs.StatFillCounts` | app.py:84 | no column's missing count grows, and a column with a non-NaN statistic has none left |
| `ResolverProofs.StatFillLeavesOnlyEmptyColumns` | app.py:78-84 | if a NaN statistic belongs only to columns with no present value, a cell of a column with a statistic can stay missing only if its whole column was missing |
| `ResolverProofs.StatFillIdempotent` | app.py:79-84 | a second statistic fill gives no message if every column it covers had a non-NaN statistic the first time |
| `ResolverProofs.LiteralFillAsWritten` | app.py:88-92 | the literal fill ends in the whole frame filled with the literal; its audit holds exactly the first column's messages, as many as that column's missing count, and none for a frame without columns |
| `ResolverProofs.LiteralFillFrame` | app.py:92 | after a literal fill no cell is missing, every missing cell holds the literal text, present cells, the row count and the labels are unchanged, and every column's missing count is zero |
| `ResolverProofs.LiteralFillIdempotent` | app.py:88-92 | a literal fill of a literal-filled frame, with any literal, changes nothing and reports nothing |
| `ResolverProofs.LiteralFillMissesLaterColumns` | app.py:88-92 | in a frame with columns A, B and the single row (1, missing), the literal fills B's cell and the audit is empty |
| `ResolverProofs.LiteralFillPerColumnMeaning` | app.py:88-92 | filling column by column gives the same frame as the code as written; the audit is every column's messages in declared column order, and its length is the total missing count |
| `Resolver.DropNa` | app.py:102 | no surviving row holds a missing cell, and the columns are kept |
| `ResolverProofs.DropNaSelects` | app.py:102 | the surviving rows and their labels are exactly the rows with no missing cell, in their original order and with their original index labels |
| `ResolverProofs.DropFrame` | app.py:98-106 | after a drop, the rows are exactly the complete input rows with their labels; every complete input row survives; the row count is the input count minus the number of messages; no cell is missing and every column's missing count is zero |
| `ResolverProofs.DropAudit` | app.py:98-101 | the drop audit has one message per row holding a missing cell (as many as such rows) and nothing else; each message carries that row's original label; with increasing labels the messages are in increasing label order |
| `ResolverProofs.DropIdempotent` | app.py:98-102 | a second drop changes nothing and reports nothing |
| `Handler.StatOutcome` | app.py:78-85 | the statistic branch ends with labels and row count kept; each missing cell of a column with a non-NaN statistic holds that statistic and every other cell is unchanged; the audit is the messages of every column that has a statistic, read off the input in declared column order; no column's missing count grows, and a column with a non-NaN statistic has none left |
| `Handler.LiteralOutcome` | app.py:88-93 | the literal branch ends with the whole frame filled: every missing cell holds the typed text and every other cell is unchanged; the audit is exactly the first column's messages (none without columns); no cell is missing and every count is zero |
| `Handler.DropOutcome` | app.py:98-106 | the drop branch keeps exactly the rows without a missing cell, in order and with their labels; every message names a row that held a missing cell and every such row has one, one message per row, in increasing label order when the labels increase; the frame is that many rows shorter, complete, and every count is zero |
| `Handler.Handle` | app.py:72-106 | the whole action never grows a column's missing count. Fill keeps the labels and row count. Fill with "mean" fills by the means, with "median" by the medians, each with the statistic branch's cells, audit and zero counts; any other text is a literal fill with that text, its cells and its first-column audit. Drop keeps exactly the complete rows and reports exactly the incomplete ones, in increasing label order when the labels increase. Drop and the literal fill leave no missing cell |
| `Columns.NumericNames` | app.py:34 | at most one name per column, each a column name; the exact contents are `Columns.NumericNamesMembership` and the order `Columns.PartitionIsTheInterleaving` |
| `Columns.DropNames` | app.py:35 | at most one name per column, none of them a dropped name; the exact contents are `Columns.DropNamesMembership` |
| `Columns.NumericNamesMembership` | app.py:34 | a name is in the numeric list exactly when some numeric column carries it |
| `Columns.DropNamesMembership` | app.py:35 | a name survives dropping the numeric names exactly when it is a column name not in the dropped list |
| `Columns.Partition` | app.py:34-35 | no name is in both lists, every column's name is in one of them, and nothing else is |
| `Columns.PartitionIsTheInterleaving` | app.py:34-35 | with distinct column names, two lists interleave to the columns in declared order, numeric columns feeding the first list and the others the second, exactly when they are the two lists the code builds |
| `Columns.InterleavingUnique` | app.py:34-35 | the columns determine the pair of lists they interleave to |
| `Columns.CategoricalGuard` | app.py:125 | `(len(numeric) and len(categorical)) > 1` holds exactly when there is at least one numeric column and more than one categorical column |
| `Columns.IndexOf` | app.py:114 | `list.index` returns the first position holding the value |
| `Columns.RemoveFirst` | app.py:113-115 | the second relational choice list is the numeric list with the first occurrence of the first choice cut out and every other name kept in order; so it is one shorter, the two differ by that choice as multisets, and with distinct names it is still distinct and holds exactly the other numeric names |
| `Columns.PanelAsWritten` | app.py:110-150 | the relational plot needs more than one numeric column and the count plot more than one categorical column. Once a relational plot has been drawn with a first choice, the second relational choice list, the categorical list and the distribution list are one and the same list: the numeric list with the first occurrence of that choice cut out, the rest in order (so, with distinct names, without that choice); the distribution plot then needs more than two numeric columns, and the categorical plot depends only on there being more than one categorical column. Otherwise the categorical and distribution plots see the full numeric list, with the guards of lines 125 and 149 on it |
| `Columns.PanelIntended` | app.py:110-150 | the relational and distribution guards are "more than one numeric column", the count guard "more than one categorical column", the categorical guard "at least one numeric and more than one categorical column", the later plots list every numeric column, and the second relational choice list holds exactly the numeric names other than the first choice |
| `Columns.PanelsAgreeWithoutPick` | app.py:110-150 | without a relational plot, the panel as written and the intended panel are the same |
| `Columns.PanelAsWrittenLosesColumn` | app.py:112-150 | with numeric columns a, b, categorical columns c, d, and "a" as the relational first choice, the code as written refuses the distribution plot and offers only "b" to the categorical plot; the intended panel allows the plot and offers both |

`Handler.Handle` follows the code as written. Its literal fill is
`Resolver.LiteralFill`, because the model describes what the tool does.
The corrected `Resolver.LiteralFillPerColumn` is modelled next to it and
produces the same frame.

## Findings

| source | as written | input that shows it | evidently intended | confidence | as-written member | corrected member |
|---|---|---|---|---|---|---|
| app.py:88-92 | `df = df.fillna(fill_value)` sits inside the column loop, so the first iteration fills the whole frame. Only the first column's missing cells get messages. | columns A, B; one row (1, missing); literal "x": B's cell becomes "x" and the audit is empty | one message per filled cell of every column, as the statistic branch does with its per-column `fillna` (line 84) | not executed; high | `ResolverProofs.LiteralFillMissesLaterColumns` | `ResolverProofs.LiteralFillPerColumnMeaning` |
| app.py:113-115 | `del numerical_col[...]` shortens the list that the later plots (lines 125-127, 149-150) also use | numeric a, b; categorical c, d; relational plot ticked with first choice a: the distribution plot reports "Not enough columns", and the categorical plot offers only b | derive the second choice list from an unchanged base list | not executed; medium | `Columns.PanelAsWrittenLosesColumn` | `Columns.PanelIntended` |

## Left out

- Page layout, widgets, `st.write`/`st.text` rendering and the file uploader (app.py:10-30, 38-69): these are UI. Widget values (radio, text input, checkboxes, select boxes) become parameters.
- CSV parsing with `pd.read_csv` (app.py:33) is a library call. Column kinds (`Columns.Kind`) are an input.
- Mean and median arithmetic and the `{:.2f}` formatting (app.py:78, 83) are floating point. The statistics are an input `map<string, Stat>`, and a message keeps the statistic itself instead of its formatted text.
- Which columns `df.mean()`/`df.median()` return a value for depends on the pandas version. Non-numeric columns are either dropped or raise an error. The statistic map's keys are an input, and the error path of newer pandas is not modelled.
- Storing a text literal in a numeric column makes pandas change the column's dtype (app.py:92). The model stores `Text(literal)` and does not track dtypes after loading.
- Seaborn and matplotlib plotting, `describe`, `head`, `tail`, `value_counts` and `corr` (app.py:46-69, 116-169) wrap libraries that are not part of this model. The same goes for the hue choice lists `categorical_col.insert(0, None)` (lines 117, 131, 167). Only the guards and the numeric choice lists are modelled.
- Index labels are integers. A loaded frame is labelled 0, 1, 2, ...; the ordering results assume only `IncreasingLabels`.
- Duplicate column names: the resolver is positional and does not need distinct names. The partition's ordering result requires distinct names, which pandas enforces when it loads a CSV file.
- Resolver.StatFill: its own contract states only that columns and labels are kept. The cell and audit properties are `ResolverProofs.StatFillFrame` and `ResolverProofs.StatFillAudit`.
- Resolver.LiteralFill: its own contract states only that columns and labels are kept. Its meaning is `ResolverProofs.LiteralFillAsWritten` and `ResolverProofs.LiteralFillFrame`.
- Resolver.PerColumnFill: its own contract states only that columns and labels are kept. Its meaning is `ResolverProofs.PerColumnFillMeaning`.
- Resolver.LiteralLoop: its own contract states only that columns and labels are kept. Its meaning is `ResolverProofs.LiteralFillAsWritten`.
- Resolver.LiteralFillPerColumn: its own contract states only that columns and labels are kept. Its meaning is `ResolverProofs.LiteralFillPerColumnMeaning`.
- Resolver.DropRows: its own contract states only that the columns are kept. Its meaning is `ResolverProofs.DropFrame` and `ResolverProofs.DropAudit`.
- ResolverProofs.StatFillIdempotent: the statistic fill is idempotent only when no covered column had a NaN statistic. Repeating a NaN fill repeats its messages, so the lemma requires a non-NaN statistic.
- The literal fill reports only the first column's cells (see Findings), and a statistic fill with a NaN statistic repeats its messages when run again (see `ResolverProofs.StatFillIdempotent`). The model keeps both behaviours.

=== FILE: columns.dfy ===
/**
 The column lists app.py derives right after loading (lines 34-35) and the
 guards that decide whether a plot can be drawn (lines 112-115, 125, 139,
 149). The relational plot removes its first choice from the shared numeric
 list in place (line 114), so every later guard sees the shortened list.
 */
module Columns {
  import opened DataFrame

  /** The dtype class of a column: a NumPy number, or anything else. */
  datatype Kind = Numeric | Other

  datatype Column = Column(name: string, kind: Kind)

  function Names(cols: seq<Column>): (names: seq<string>)
    ensures |names| == |cols|
  {
    seq(|cols|, i requires 0 <= i < |cols| => cols[i].name)
  }

  predicate Distinct(s: seq<string>) {
    forall m, n :: 0 <= m < n < |s| ==> s[m] != s[n]
  }

  /** `df.select_dtypes(include=np.number).columns.tolist()` */
  function NumericNames(cols: seq<Column>): (names: seq<string>)
    ensures |names| <= |cols|
    ensures forall x :: x in names ==> x in Names(cols)
  {
    assert |cols| > 0 ==> Names(cols) == [cols[0].name] + Names(cols[1..]);
    if |cols| == 0 then []
    else (if cols[0].kind == Numeric then [cols[0].name] else []) + NumericNames(cols[1..])
  }

  /** `df.drop(names, axis=1).columns`: the columns whose name is not dropped, in order. */
  function DropNames(cols: seq<Column>, names: seq<string>): (rest: seq<string>)
    ensures |rest| <= |cols|
    ensures forall x :: x in rest ==> x !in names
  {
    if |cols| == 0 then []
    else (if cols[0].name in names then [] else [cols[0].name]) + DropNames(cols[1..], names)
  }

  /** `numerical_col` and `categorical_col`: together they hold every column
      name, and no name is in both. */
  function Partition(cols: seq<Column>): (p: (seq<string>, seq<string>))
    ensures forall x :: x in p.0 ==> x !in p.1
    ensures forall i :: 0 <= i < |cols| ==> cols[i].name in p.0 || cols[i].name in p.1
    ensures forall x :: x in p.0 || x in p.1 ==> x in Names(cols)
  {
    var numeric := NumericNames(cols);
    NumericNamesMembership(cols);
    DropNamesMembership(cols, numeric);
    assert forall i :: 0 <= i < |cols| ==> Names(cols)[i] == cols[i].name;
    (numeric, DropNames(cols, numeric))
  }

  /** A name is numeric exactly when some numeric column carries it. */
  lemma {:induction false} NumericNamesMembership(cols: seq<Column>)
    ensures forall x :: x in NumericNames(cols) <==> exists i :: 0 <= i < |cols| && cols[i].kind == Numeric && cols[i].name == x
    decreases |cols|
  {
    if |cols| > 0 {
      NumericNamesMembership(cols[1..]);
      assert forall i :: 1 <= i < |cols| ==> cols[i] == cols[1..][i - 1];
    }
  }

  /** A name survives `drop` exactly when some column carries it and it is not dropped. */
  lemma {:induction false} DropNamesMembership(cols: seq<Column>, names: seq<string>)
    ensures forall x :: x in DropNames(cols, names) <==> x in Names(cols) && x !in names
    decreases |cols|
  {
    if |cols| > 0 {
      DropNamesMembership(cols[1..], names);
      assert Names(cols) == [cols[0].name] + Names(cols[1..]);
    }
  }

  /** Declared order is kept: the columns, read in order, hand out the names of
      `a` and `b` one by one, a numeric column the next name of `a`, any other
      column the next name of `b`. */
  predicate Interleaves(cols: seq<Column>, a: seq<string>, b: seq<string>)
    decreases |cols|
  {
    if |cols| == 0 then a == [] && b == []
    else if cols[0].kind == Numeric then |a| > 0 && a[0] == cols[0].name && Interleaves(cols[1..], a[1..], b)
    else |b| > 0 && b[0] == cols[0].name && Interleaves(cols[1..], a, b[1..])
  }

  /** While the dropped names are exactly those of the numeric columns, the
      numeric names and the surviving names interleave to the columns. */
  lemma {:induction false} SplitInterleaves(cols: seq<Column>, dropped: seq<string>)
    requires forall i :: 0 <= i < |cols| ==> (cols[i].name in dropped <==> cols[i].kind == Numeric)
    ensures Interleaves(cols, NumericNames(cols), DropNames(cols, dropped))
    decreases |cols|
  {
    if |cols| > 0 {
      SplitInterleaves(cols[1..], dropped);
      var a, b := NumericNames(cols[1..]), DropNames(cols[1..], dropped);
      if cols[0].kind == Numeric {
        assert NumericNames(cols) == [cols[0].name] + a && DropNames(cols, dropped) == b;
        assert ([cols[0].name] + a)[1..] == a;
      } else {
        assert NumericNames(cols) == a && DropNames(cols, dropped) == [cols[0].name] + b;
        assert ([cols[0].name] + b)[1..] == b;
      }
    }
  }

  /** With distinct column names (as a loaded CSV file has), a pair of lists
      interleaves to the columns exactly when it is the partition. */
  lemma {:induction false} PartitionIsTheInterleaving(cols: seq<Column>, a: seq<string>, b: seq<string>)
    requires Distinct(Names(cols))
    ensures Interleaves(cols, a, b) <==> (a, b) == Partition(cols)
  {
    var numeric := NumericNames(cols);
    NumericNamesMembership(cols);
    forall i | 0 <= i < |cols|
      ensures cols[i].name in numeric <==> cols[i].kind == Numeric
    {
      if cols[i].name in numeric {
        var m :| 0 <= m < |cols| && cols[m].kind == Numeric && cols[m].name == cols[i].name;
        assert Names(cols)[m] == Names(cols)[i];
      }
    }
    SplitInterleaves(cols, numeric);
    if Interleaves(cols, a, b) {
      InterleavingUnique(cols, a, b, numeric, DropNames(cols, numeric));
    }
  }

  /** The columns determine the lists they interleave. */
  lemma {:induction false} InterleavingUnique(cols: seq<Column>, a: seq<string>, b: seq<string>, a': seq<string>, b': seq<string>)
    requires Interleaves(cols, a, b) && Interleaves(cols, a', b')
    ensures a == a' && b == b'
    decreases |cols|
  {
    if |cols| == 0 {
    } else if cols[0].kind == Numeric {
      InterleavingUnique(cols[1..], a[1..], b, a'[1..], b');
      assert a == [a[0]] + a[1..] && a' == [a'[0]] + a'[1..];
    } else {
      InterleavingUnique(cols[1..], a, b[1..], a', b'[1..]);
      assert b == [b[0]] + b[1..] && b' == [b'[0]] + b'[1..];
    }
  }

  // ---------------------------------------------------------------- plot guards

  /** Python's `a and b` on two integers: `a` when it is falsy (zero), else `b`. */
  function PyAnd(a: int, b: int): (r: int) {
    if a == 0 then a else b
  }

  /** Relational and distribution plots (lines 112, 149): more than one numeric column. */
  predicate EnoughNumeric(numeric: seq<string>) {
    |numeric| > 1
  }

  /** Categorical plot (line 125), `(len(numeric) and len(categorical)) > 1`:
      by Python's precedence this asks for at least one numeric column and
      more than one categorical column. */
  function CategoricalGuard(numeric: seq<string>, categorical: seq<string>): (ok: bool)
    ensures ok <==> |numeric| >= 1 && |categorical| > 1
  {
    PyAnd(|numeric|, |categorical|) > 1
  }

  /** `numeric.index(x)`: the first position holding `x`. */
  function IndexOf(s: seq<string>, x: string): (p: nat)
    requires x in s
    ensures p < |s| && s[p] == x && x !in s[..p]
  {
    if s[0] == x then 0 else 1 + IndexOf(s[1..], x)
  }

  /** `del numeric[numeric.index(x)]`: the list without the first occurrence
      of `x`, the others in their order. */
  function RemoveFirst(s: seq<string>, x: string): (r: seq<string>)
    requires x in s
    ensures |r| == |s| - 1
    ensures multiset(r) + multiset{x} == multiset(s)
    ensures Distinct(s) ==> Distinct(r) && forall y :: y in r <==> y in s && y != x
    ensures exists p :: 0 <= p < |s| && s[p] == x && x !in s[..p] && r == s[..p] + s[p + 1..]
  {
    var p := IndexOf(s, x);
    assert s == s[..p] + [x] + s[p + 1..];
    s[..p] + s[p + 1..]
  }

  /** What the "Data Visualizations" page offers: whether each guarded plot
      can be drawn and which columns its selection boxes list. */
  datatype Panel = Panel(
    relational: bool,            // line 112
    relationalY: seq<string>,    // line 115: second choice, after the first was picked
    categorical: bool,           // line 125
    categoricalY: seq<string>,   // line 127
    count: bool,                 // line 139
    distribution: bool,          // line 149
    distributionChoices: seq<string>) // line 150

  /** A relational-plot first choice, when that plot is ticked, is one of the numeric columns. */
  predicate ValidPick(numeric: seq<string>, pick: Option<string>) {
    pick.Some? && EnoughNumeric(numeric) ==> pick.value in numeric
  }

  /** The panel as written: once the relational plot is ticked and drawn,
      its first choice is gone from the shared list for every later plot. */
  function PanelAsWritten(numeric: seq<string>, categorical: seq<string>, pick: Option<string>): (p: Panel)
    requires ValidPick(numeric, pick)
    ensures pick.Some? && EnoughNumeric(numeric) ==>
      |p.distributionChoices| == |numeric| - 1 && (Distinct(numeric) ==> pick.value !in p.categoricalY)
    ensures p.relational <==> |numeric| > 1
    ensures p.count <==> |categorical| > 1
    ensures pick.None? || !EnoughNumeric(numeric) ==>
      && p.categoricalY == numeric && p.distributionChoices == numeric
      && (p.distribution <==> |numeric| > 1)
      && (p.categorical <==> CategoricalGuard(numeric, categorical))
    ensures pick.Some? && EnoughNumeric(numeric) ==>
      && p.relationalY == RemoveFirst(numeric, pick.value)
      && p.distributionChoices == p.categoricalY == p.relationalY
      && (p.distribution <==> |numeric| > 2)
      && (p.categorical <==> |categorical| > 1)
  {
    var shared := if pick.Some? && EnoughNumeric(numeric) then RemoveFirst(numeric, pick.value) else numeric;
    Panel(EnoughNumeric(numeric), if pick.Some? && EnoughNumeric(numeric) then shared else [],
      CategoricalGuard(shared, categorical), shared,
      |categorical| > 1,
      EnoughNumeric(shared), shared)
  }

  /** The panel as evidently intended: the second relational choice is
      derived afresh, and the later plots see every numeric column. */
  function PanelIntended(numeric: seq<string>, categorical: seq<string>, pick: Option<string>): (p: Panel)
    requires ValidPick(numeric, pick)
    ensures p.relational <==> |numeric| > 1
    ensures p.count <==> |categorical| > 1
    ensures p.distribution <==> |numeric| > 1
    ensures p.categorical <==> |numeric| >= 1 && |categorical| > 1
    ensures p.categoricalY == numeric && p.distributionChoices == numeric
    ensures Distinct(numeric) && pick.Some? && p.relational ==>
      forall y :: y in p.relationalY <==> y in numeric && y != pick.value
  {
    var second := if pick.Some? && EnoughNumeric(numeric) then RemoveFirst(numeric, pick.value) else [];
    Panel(EnoughNumeric(numeric), second,
      CategoricalGuard(numeric, categorical), numeric,
      |categorical| > 1,
      EnoughNumeric(numeric), numeric)
  }

  /** Without a relational pick the two panels agree. */
  lemma PanelsAgreeWithoutPick(numeric: seq<string>, categorical: seq<string>)
    ensures PanelAsWritten(numeric, categorical, None) == PanelIntended(numeric, categorical, None)
  {
  }

  /** The discrepancy: with two numeric columns, picking "a" for the relational
      plot makes the distribution plot report "Not enough columns", and the
      categorical plot no longer offers "a". */
  lemma PanelAsWrittenLosesColumn()
    ensures var asWritten := PanelAsWritten(["a", "b"], ["c", "d"], Some("a"));
      var intended := PanelIntended(["a", "b"], ["c", "d"], Some("a"));
      && !asWritten.distribution && intended.distribution
      && asWritten.categoricalY == ["b"] && intended.categoricalY == ["a", "b"]
      && asWritten.relationalY == intended.relationalY == ["b"]
  {
    var s: seq<string> := ["a", "b"];
    assert s[..0] + s[1..] == ["b"];
  }
}

=== FILE: frame.dfy ===
/**
 The table the EDA tool works on once a CSV file has been loaded: named
 columns, one index label per row, and rows whose cells may be missing.
 The missing marker (NaN or None in the data frame) is `None`.
 */
module DataFrame {

  datatype Option<+T> = None | Some(value: T)

  /** A present cell value: numeric columns hold numbers, the others text. */
  datatype Cell = Num(x: real) | Text(s: string)

  /** A cell slot of a row; `None` is a missing cell. */
  type Slot = Option<Cell>

  type Row = seq<Slot>

  /** A column statistic (mean or median). `NaN` is what the statistic of a
      numeric column without any present value evaluates to. */
  datatype Stat = Finite(v: real) | NaN

  /** Column names in declared order, index labels, and rows in index order. */
  datatype Frame = Frame(columns: seq<string>, index: seq<int>, rows: seq<Row>)

  /** Every row has one label and one slot per column. */
  predicate WellFormed(f: Frame) {
    && |f.index| == |f.rows|
    && forall i :: 0 <= i < |f.rows| ==> |f.rows[i]| == |f.columns|
  }

  function Width(f: Frame): nat { |f.columns| }

  function Height(f: Frame): nat { |f.rows| }

  predicate RowHasMissing(r: Row) {
    exists k :: 0 <= k < |r| && r[k].None?
  }

  /** No cell of the frame is missing. */
  predicate Complete(f: Frame) {
    forall i, k :: 0 <= i < |f.rows| && 0 <= k < |f.rows[i]| ==> f.rows[i][k].Some?
  }

  /** Labels strictly increase from row to row (a freshly loaded frame is labelled 0, 1, 2, ...). */
  predicate IncreasingLabels(f: Frame) {
    forall m, n :: 0 <= m < n < |f.index| ==> f.index[m] < f.index[n]
  }

  /** Per row: is the cell of column `j` missing (the mask `df[col].isna()`). */
  function ColumnMissing(f: Frame, j: nat): (flags: seq<bool>)
    requires WellFormed(f) && j < Width(f)
    ensures |flags| == Height(f)
    ensures forall i :: 0 <= i < |flags| ==> flags[i] == f.rows[i][j].None?
  {
    seq(Height(f), i requires 0 <= i < Height(f) => f.rows[i][j].None?)
  }

  /** Per row: does the row hold a missing cell (the mask `df.isna().any(axis=1)`). */
  function RowMissing(f: Frame): (flags: seq<bool>)
    ensures |flags| == Height(f)
    ensures forall i :: 0 <= i < |flags| ==> flags[i] == RowHasMissing(f.rows[i])
  {
    seq(Height(f), i requires 0 <= i < Height(f) => RowHasMissing(f.rows[i]))
  }

  function Not(flags: seq<bool>): (r: seq<bool>)
    ensures |r| == |flags|
  {
    seq(|flags|, i requires 0 <= i < |flags| => !flags[i])
  }

  /** Number of set flags, counted from the front (the reduction `.sum()` of a mask). */
  function CountTrue(flags: seq<bool>): (n: nat)
    ensures n <= |flags|
    ensures n == 0 <==> forall i :: 0 <= i < |flags| ==> !flags[i]
  {
    if |flags| == 0 then 0 else (if flags[0] then 1 else 0) + CountTrue(flags[1..])
  }

  /** The positions at which `flags` holds, in increasing order: positionally,
      the row selection `df[mask].index`. */
  function Where(flags: seq<bool>): (ps: seq<nat>)
    ensures forall n :: 0 <= n < |ps| ==> ps[n] < |flags| && flags[ps[n]]
    ensures forall p :: 0 <= p < |flags| && flags[p] ==> p in ps
    ensures forall m, n :: 0 <= m < n < |ps| ==> ps[m] < ps[n]
    decreases |flags|
  {
    if |flags| == 0 then []
    else
      var last := |flags| - 1;
      Where(flags[..last]) + (if flags[last] then [last] else [])
  }

  /** The elements of `s` at positions `ps`, in that order. */
  function Select<T>(s: seq<T>, ps: seq<nat>): (r: seq<T>)
    requires forall n :: 0 <= n < |ps| ==> ps[n] < |s|
    ensures |r| == |ps|
  {
    seq(|ps|, n requires 0 <= n < |ps| => s[ps[n]])
  }

  /** Index labels of the rows whose cell in column `j` is missing, in row order. */
  function MissingLabels(f: Frame, j: nat): (labels: seq<int>)
    requires WellFormed(f) && j < Width(f)
  {
    Select(f.index, Where(ColumnMissing(f, j)))
  }

  /** Missing cells per column in declared order (`df.isnull().sum()`). */
  function MissingCounts(f: Frame): (counts: seq<nat>)
    requires WellFormed(f)
    ensures |counts| == Width(f)
    ensures forall k :: 0 <= k < |counts| ==> counts[k] <= Height(f)
    ensures forall k :: 0 <= k < |counts| ==>
      (counts[k] == 0 <==> forall i :: 0 <= i < Height(f) ==> f.rows[i][k].Some?)
  {
    seq(Width(f), j requires 0 <= j < Width(f) => CountTrue(ColumnMissing(f, j)))
  }

  /** Counting from the back agrees with counting from the front. */
  lemma {:induction false} CountTrueSnoc(flags: seq<bool>)
    requires |flags| > 0
    ensures CountTrue(flags) == CountTrue(flags[..|flags| - 1]) + (if flags[|flags| - 1] then 1 else 0)
    decreases |flags|
  {
    if |flags| > 1 {
      CountTrueSnoc(flags[1..]);
      assert flags[1..][..|flags[1..]| - 1] == flags[..|flags| - 1][1..];
    }
  }

  /** `Where` lists exactly as many positions as there are set flags. */
  lemma {:induction false} WhereCounts(flags: seq<bool>)
    ensures |Where(flags)| == CountTrue(flags)
    decreases |flags|
  {
    if |flags| > 0 {
      WhereCounts(flags[..|flags| - 1]);
      CountTrueSnoc(flags);
    }
  }

  /** Every position is either selected by a mask or by its negation. */
  lemma {:induction false} CountSplit(flags: seq<bool>)
    ensures CountTrue(flags) + CountTrue(Not(flags)) == |flags|
    decreases |flags|
  {
    if |flags| > 0 {
      assert Not(flags)[1..] == Not(flags[1..]);
      CountSplit(flags[1..]);
    }
  }

  /** A mask that implies another counts no more than it. */
  lemma {:induction false} CountMonotone(a: seq<bool>, b: seq<bool>)
    requires |a| == |b|
    requires forall i :: 0 <= i < |a| && a[i] ==> b[i]
    ensures CountTrue(a) <= CountTrue(b)
    decreases |a|
  {
    if |a| > 0 {
      CountMonotone(a[1..], b[1..]);
    }
  }

  /** Selecting with increasing positions from increasing labels keeps them increasing. */
  lemma SelectIncreasing(s: seq<int>, ps: seq<nat>)
    requires forall n :: 0 <= n < |ps| ==> ps[n] < |s|
    requires forall m, n :: 0 <= m < n < |ps| ==> ps[m] < ps[n]
    requires forall m, n :: 0 <= m < n < |s| ==> s[m] < s[n]
    ensures forall m, n :: 0 <= m < n < |ps| ==> Select(s, ps)[m] < Select(s, ps)[n]
  {
  }
}

=== FILE: handler.dfy ===
/**
 The "Handle Missing Values" action as a whole (app.py lines 72-106): the
 radio button picks Fill or Drop, the text input picks the kind of fill, and
 the action ends by showing the missing count of every column.
 */
module Handler {
  import opened DataFrame
  import opened Resolver
  import opened ResolverProofs

  /** The frame afterwards, the audit messages shown, and the missing count per column. */
  datatype Outcome = Outcome(frame: Frame, audit: seq<Entry>, remaining: seq<nat>)

  /** `g` is `f` with the missing cells of every column that has a non-NaN
      statistic filled by it, and every other cell kept. */
  predicate StatFilled(f: Frame, g: Frame, stats: map<string, Stat>)
    requires WellFormed(f) && WellFormed(g) && g.columns == f.columns && Height(g) == Height(f)
  {
    forall i, k :: 0 <= i < Height(f) && 0 <= k < Width(f) ==>
      g.rows[i][k] ==
        (if f.rows[i][k].None? && f.columns[k] in stats && stats[f.columns[k]].Finite?
         then Some(Num(stats[f.columns[k]].v))
         else f.rows[i][k])
  }

  /** `g` is `f` with every missing cell holding the text `lit`, and every other cell kept. */
  predicate LiteralFilled(f: Frame, g: Frame, lit: string)
    requires WellFormed(f) && WellFormed(g) && g.columns == f.columns && Height(g) == Height(f)
  {
    forall i, k :: 0 <= i < Height(f) && 0 <= k < Width(f) ==>
      g.rows[i][k] == (if f.rows[i][k].None? then Some(Text(lit)) else f.rows[i][k])
  }

  /** `g` holds exactly the rows of `f` without a missing cell, in order, with their labels. */
  predicate KeepsCompleteRows(f: Frame, g: Frame)
    requires WellFormed(f)
  {
    var keep := Where(Not(RowMissing(f)));
    && g.rows == Select(f.rows, keep)
    && g.index == Select(f.index, keep)
  }

  /** Every message of `audit` names a row of `f` that held a missing cell,
      every such row has one, and with increasing labels they come in label order. */
  predicate ReportsIncompleteRows(f: Frame, audit: seq<Entry>)
    requires WellFormed(f)
  {
    && (forall n :: 0 <= n < |audit| ==>
          exists i :: 0 <= i < Height(f) && RowHasMissing(f.rows[i]) && audit[n] == RowDropped(f.index[i]))
    && (forall i :: 0 <= i < Height(f) && RowHasMissing(f.rows[i]) ==> RowDropped(f.index[i]) in audit)
    && (IncreasingLabels(f) ==> forall m, n :: 0 <= m < n < |audit| ==> audit[m].index < audit[n].index)
  }

  /** The outcome of a statistic fill by `stats`: the cells, the audit read
      off the input, and no missing cell left in a column with a non-NaN statistic. */
  predicate StatBranch(f: Frame, o: Outcome, stats: map<string, Stat>)
    requires WellFormed(f)
  {
    && WellFormed(o.frame) && o.frame.columns == f.columns && Height(o.frame) == Height(f)
    && StatFilled(f, o.frame, stats)
    && o.audit == Flatten(StatEntries(f, stats))
    && |o.remaining| == Width(f)
    && forall k :: 0 <= k < Width(f) && f.columns[k] in stats && stats[f.columns[k]].Finite? ==> o.remaining[k] == 0
  }

  /** The outcome of the literal fill by `lit` as written: the cells, and the first column's messages. */
  predicate LiteralBranch(f: Frame, o: Outcome, lit: string)
    requires WellFormed(f)
  {
    && WellFormed(o.frame) && o.frame.columns == f.columns && Height(o.frame) == Height(f)
    && LiteralFilled(f, o.frame, lit)
    && o.audit == (if Width(f) == 0 then [] else ColumnEntries(f, 0, WithLiteral(lit)))
    && |o.audit| == (if Width(f) == 0 then 0 else MissingCounts(f)[0])
  }

  /** The outcome of the drop: the complete rows kept, the incomplete ones reported. */
  predicate DropBranch(f: Frame, o: Outcome)
    requires WellFormed(f)
  {
    && KeepsCompleteRows(f, o.frame)
    && ReportsIncompleteRows(f, o.audit)
    && |o.audit| == CountTrue(RowMissing(f)) && Height(o.frame) == Height(f) - |o.audit|
  }

  /** Fill by statistic, then count what is left missing. */
  function StatOutcome(f: Frame, stats: map<string, Stat>): (o: Outcome)
    requires WellFormed(f)
    ensures WellFormed(o.frame) && o.frame.columns == f.columns
    ensures o.frame.index == f.index && Height(o.frame) == Height(f)
    ensures StatFilled(f, o.frame, stats)
    ensures o.audit == Flatten(StatEntries(f, stats))
    ensures |o.remaining| == Width(f)
    ensures forall k :: 0 <= k < Width(f) ==> o.remaining[k] <= MissingCounts(f)[k]
    ensures forall k :: 0 <= k < Width(f) && f.columns[k] in stats && stats[f.columns[k]].Finite? ==> o.remaining[k] == 0
  {
    StatFillCounts(f, stats);
    StatFillFrame(f, stats);
    StatFillAudit(f, stats);
    var res := StatFill(f, stats);
    Outcome(res.0, res.1, MissingCounts(res.0))
  }

  /** Fill by a literal as written, then count what is left missing: nothing. */
  function LiteralOutcome(f: Frame, lit: string): (o: Outcome)
    requires WellFormed(f)
    ensures WellFormed(o.frame) && o.frame.columns == f.columns
    ensures o.frame.index == f.index && Height(o.frame) == Height(f)
    ensures o.frame == FillAll(f, lit) && LiteralFilled(f, o.frame, lit)
    ensures o.audit == (if Width(f) == 0 then [] else ColumnEntries(f, 0, WithLiteral(lit)))
    ensures |o.audit| == (if Width(f) == 0 then 0 else MissingCounts(f)[0])
    ensures Complete(o.frame)
    ensures |o.remaining| == Width(f) && forall k :: 0 <= k < Width(f) ==> o.remaining[k] == 0
  {
    LiteralFillFrame(f, lit);
    LiteralFillAsWritten(f, lit);
    FillAllCells(f, lit);
    var res := LiteralFill(f, lit);
    Outcome(res.0, res.1, MissingCounts(res.0))
  }

  /** Drop, then count what is left missing: nothing. */
  function DropOutcome(f: Frame): (o: Outcome)
    requires WellFormed(f)
    ensures WellFormed(o.frame) && o.frame.columns == f.columns
    ensures KeepsCompleteRows(f, o.frame)
    ensures ReportsIncompleteRows(f, o.audit)
    ensures |o.audit| == CountTrue(RowMissing(f)) && Height(o.frame) == Height(f) - |o.audit|
    ensures Complete(o.frame)
    ensures |o.remaining| == Width(f) && forall k :: 0 <= k < Width(f) ==> o.remaining[k] == 0
  {
    DropFrame(f);
    DropAudit(f);
    var res := DropRows(f);
    Outcome(res.0, res.1, MissingCounts(res.0))
  }

  /** `means` and `medians` stand for `df.mean()` and `df.median()`: the
      statistic of every column the data frame library computes one for. */
  function Handle(f: Frame, action: Action, text: string, means: map<string, Stat>, medians: map<string, Stat>): (o: Outcome)
    requires WellFormed(f)
    ensures WellFormed(o.frame) && o.frame.columns == f.columns
    ensures |o.remaining| == Width(f)
    ensures forall k :: 0 <= k < Width(f) ==> o.remaining[k] <= MissingCounts(f)[k]
    ensures action == Fill ==> o.frame.index == f.index && Height(o.frame) == Height(f)
    ensures action == Fill && text == "mean" ==> StatBranch(f, o, means)
    ensures action == Fill && text == "median" ==> StatBranch(f, o, medians)
    ensures action == Fill && text != "mean" && text != "median" ==> LiteralBranch(f, o, text)
    ensures action == Drop || (text != "mean" && text != "median") ==>
      Complete(o.frame) && forall k :: 0 <= k < Width(f) ==> o.remaining[k] == 0
    ensures action == Drop ==> DropBranch(f, o)
  {
    match action
    case Drop => DropOutcome(f)
    case Fill =>
      match Dispatch(text)
      case ByStatistic(Mean) => StatOutcome(f, means)
      case ByStatistic(Median) => StatOutcome(f, medians)
      case ByLiteral(lit) => LiteralOutcome(f, lit)
  }
}

=== FILE: resolver.dfy ===
/**
 The "Handle Missing Values" action of app.py (lines 72-106): fill the
 missing cells of a frame with a per-column statistic or a literal, or drop
 the rows that hold a missing cell, and keep an audit trail of every cell
 filled or row dropped.
 */
module Resolver {
  import opened DataFrame

  /** What a missing cell is filled with. */
  datatype Replacement = WithStat(stat: Stat) | WithLiteral(literal: string)

  /** One audit message. `Filled` is rendered as "The missing value at index
      {index} in column '{column}' was replaced with {value}." (a statistic
      with two decimals, a literal in quotes); `RowDropped` as "Row at index
      {index} with missing values was dropped." */
  datatype Entry =
    | Filled(index: int, column: string, with: Replacement)
    | RowDropped(index: int)

  /** The choice of the "Fill or Drop?" radio button. */
  datatype Action = Fill | Drop

  datatype StatKind = Mean | Median

  /** How the text input "Fill value or method (mean/median)" is read. */
  datatype FillChoice = ByStatistic(kind: StatKind) | ByLiteral(literal: string)

  /** The text selects a statistic exactly when it is "mean" or "median";
      any other text, the empty one included, is the literal to fill with,
      so neither word can itself be used as a literal. */
  function Dispatch(text: string): (c: FillChoice)
    ensures c.ByStatistic? <==> text == "mean" || text == "median"
    ensures c == ByStatistic(Mean) <==> text == "mean"
    ensures c.ByLiteral? ==> c.literal == text
    ensures c != ByLiteral("mean") && c != ByLiteral("median")
  {
    if text in ["mean", "median"] then
      (if text == "mean" then ByStatistic(Mean) else ByStatistic(Median))
    else ByLiteral(text)
  }

  /** `fillna` on one cell. Filling with a NaN statistic leaves the cell missing. */
  function Replace(slot: Slot, r: Replacement): (filled: Slot) {
    if slot.Some? then slot
    else match r
      case WithStat(Finite(v)) => Some(Num(v))
      case WithStat(NaN) => None
      case WithLiteral(lit) => Some(Text(lit))
  }

  /** `df[col] = df[col].fillna(value)` for the column at position `j`. */
  function FillColumn(f: Frame, j: nat, r: Replacement): (g: Frame)
    requires WellFormed(f) && j < Width(f)
    ensures WellFormed(g) && g.columns == f.columns && g.index == f.index
  {
    f.(rows := seq(Height(f), i requires 0 <= i < Height(f) => f.rows[i][j := Replace(f.rows[i][j], r)]))
  }

  /** `df.fillna(literal)`: every missing cell of the frame takes the literal. */
  function FillAll(f: Frame, lit: string): (g: Frame)
    requires WellFormed(f)
    ensures WellFormed(g) && g.columns == f.columns && g.index == f.index
  {
    f.(rows := seq(Height(f), i requires 0 <= i < Height(f) =>
      seq(Width(f), k requires 0 <= k < Width(f) => Replace(f.rows[i][k], WithLiteral(lit)))))
  }

  /** One message per missing cell of column `j`, in row order. */
  function ColumnEntries(f: Frame, j: nat, r: Replacement): (es: seq<Entry>)
    requires WellFormed(f) && j < Width(f)
    ensures |es| == MissingCounts(f)[j]
    ensures forall n :: 0 <= n < |es| ==> es[n].Filled? && es[n].column == f.columns[j] && es[n].with == r
  {
    WhereCounts(ColumnMissing(f, j));
    var labels := MissingLabels(f, j);
    seq(|labels|, n requires 0 <= n < |labels| => Filled(labels[n], f.columns[j], r))
  }

  /** A fill plan: per column, what its missing cells are filled with, if anything. */
  type Plan = seq<Option<Replacement>>

  /** The column loop shared by the statistic fill (lines 79-84): from column
      `j` on, a planned column first gets its messages, computed on the frame
      as it is at that point, and is then filled. */
  function PerColumnFill(f: Frame, plan: Plan, j: nat): (res: (Frame, seq<Entry>))
    requires WellFormed(f) && |plan| == Width(f) && j <= Width(f)
    ensures WellFormed(res.0) && res.0.columns == f.columns && res.0.index == f.index
    decreases Width(f) - j
  {
    if j == Width(f) then (f, [])
    else match plan[j]
      case None => PerColumnFill(f, plan, j + 1)
      case Some(r) =>
        var rest := PerColumnFill(FillColumn(f, j, r), plan, j + 1);
        (rest.0, ColumnEntries(f, j, r) + rest.1)
  }

  /** A column is planned when the statistic has a value for its name (`col in fill_values`). */
  function StatPlan(f: Frame, stats: map<string, Stat>): (plan: Plan)
    ensures |plan| == Width(f)
  {
    seq(Width(f), k requires 0 <= k < Width(f) =>
      if f.columns[k] in stats then Some(WithStat(stats[f.columns[k]])) else None)
  }

  /** Fill by mean or median, `stats` being the statistic per column name. */
  function StatFill(f: Frame, stats: map<string, Stat>): (res: (Frame, seq<Entry>))
    requires WellFormed(f)
    ensures WellFormed(res.0) && res.0.columns == f.columns && res.0.index == f.index
  {
    PerColumnFill(f, StatPlan(f, stats), 0)
  }

  /** The literal-fill loop as written (lines 88-92): the messages of column
      `j` are computed on the current frame, then the WHOLE frame is filled. */
  function LiteralLoop(f: Frame, lit: string, j: nat): (res: (Frame, seq<Entry>))
    requires WellFormed(f) && j <= Width(f)
    ensures WellFormed(res.0) && res.0.columns == f.columns && res.0.index == f.index
    decreases Width(f) - j
  {
    if j == Width(f) then (f, [])
    else
      var rest := LiteralLoop(FillAll(f, lit), lit, j + 1);
      (rest.0, ColumnEntries(f, j, WithLiteral(lit)) + rest.1)
  }

  /** Fill by a literal, as the source does it. */
  function LiteralFill(f: Frame, lit: string): (res: (Frame, seq<Entry>))
    requires WellFormed(f)
    ensures WellFormed(res.0) && res.0.columns == f.columns && res.0.index == f.index
  {
    LiteralLoop(f, lit, 0)
  }

  /** The plan that fills every column with the literal. */
  function LiteralPlan(f: Frame, lit: string): (plan: Plan)
    ensures |plan| == Width(f)
  {
    seq(Width(f), k => Some(WithLiteral(lit)))
  }

  /** Fill by a literal as evidently intended: the literal loop with the
      per-column `df[col] = df[col].fillna(fill_value)` of the statistic branch. */
  function LiteralFillPerColumn(f: Frame, lit: string): (res: (Frame, seq<Entry>))
    requires WellFormed(f)
    ensures WellFormed(res.0) && res.0.columns == f.columns && res.0.index == f.index
  {
    PerColumnFill(f, LiteralPlan(f, lit), 0)
  }

  /** `df.dropna()`: keep the rows without a missing cell, with their labels. */
  function DropNa(f: Frame): (g: Frame)
    requires WellFormed(f)
    ensures WellFormed(g) && g.columns == f.columns
    ensures forall n :: 0 <= n < |g.rows| ==> !RowHasMissing(g.rows[n])
    decreases |f.rows|
  {
    if |f.rows| == 0 then f
    else
      var last := |f.rows| - 1;
      var g := DropNa(Frame(f.columns, f.index[..last], f.rows[..last]));
      if RowHasMissing(f.rows[last]) then g
      else Frame(f.columns, g.index + [f.index[last]], g.rows + [f.rows[last]])
  }

  /** Drop (lines 98-102): one message per row holding a missing cell, in row
      order, then `dropna`. */
  function DropRows(f: Frame): (res: (Frame, seq<Entry>))
    requires WellFormed(f)
    ensures WellFormed(res.0) && res.0.columns == f.columns
  {
    var ps := Where(RowMissing(f));
    (DropNa(f), seq(|ps|, n requires 0 <= n < |ps| => RowDropped(f.index[ps[n]])))
  }
}

=== FILE: resolver_proofs.dfy ===
/**
 What the missing-value handler promises: the column loop against a
 reference that fills every planned column of the input at once, the
 literal-fill loop as written, the drop, idempotence and missing counts.
 */
module ResolverProofs {
  import opened DataFrame
  import opened Resolver

  function Flatten<T>(ss: seq<seq<T>>): (flat: seq<T>)
  {
    if |ss| == 0 then [] else ss[0] + Flatten(ss[1..])
  }

  function Sum(s: seq<nat>): (total: nat)
  {
    if |s| == 0 then 0 else s[0] + Sum(s[1..])
  }

  /** Reference frame: every planned column of the input filled by its replacement. */
  function Planned(f: Frame, plan: Plan): (g: Frame)
    requires WellFormed(f) && |plan| == Width(f)
  {
    f.(rows := seq(Height(f), i requires 0 <= i < Height(f) =>
      seq(Width(f), k requires 0 <= k < Width(f) =>
        if plan[k].Some? then Replace(f.rows[i][k], plan[k].value) else f.rows[i][k])))
  }

  /** Reference audit, per column: the messages of a planned column, read off the input. */
  function PlannedEntries(f: Frame, plan: Plan): (ess: seq<seq<Entry>>)
    requires WellFormed(f) && |plan| == Width(f)
    ensures |ess| == Width(f)
  {
    seq(Width(f), k requires 0 <= k < Width(f) =>
      if plan[k].Some? then ColumnEntries(f, k, plan[k].value) else [])
  }

  /** The messages of a column depend on nothing but that column, the labels and its name. */
  lemma SameColumnSameEntries(f: Frame, g: Frame, j: nat, r: Replacement)
    requires WellFormed(f) && WellFormed(g) && j < Width(f)
    requires g.columns == f.columns && g.index == f.index
    requires forall i :: 0 <= i < Height(f) ==> g.rows[i][j] == f.rows[i][j]
    ensures ColumnEntries(g, j, r) == ColumnEntries(f, j, r)
  {
    assert ColumnMissing(g, j) == ColumnMissing(f, j);
  }

  lemma FlattenStep<T>(ss: seq<seq<T>>, j: nat)
    requires j < |ss|
    ensures Flatten(ss[j..]) == ss[j] + Flatten(ss[j + 1..])
  {
    assert ss[j..][1..] == ss[j + 1..];
  }

  /** Frame `g` is the loop's frame before column `j`: columns before `j`
      are as in the reference, the others still those of the input. */
  predicate Halfway(f: Frame, plan: Plan, g: Frame, j: nat) {
    && WellFormed(f) && |plan| == Width(f) && j <= Width(f)
    && WellFormed(g) && g.columns == f.columns && g.index == f.index
    && (forall i, k :: 0 <= i < Height(f) && 0 <= k < j ==> g.rows[i][k] == Planned(f, plan).rows[i][k])
    && (forall i, k :: 0 <= i < Height(f) && j <= k < Width(f) ==> g.rows[i][k] == f.rows[i][k])
  }

  lemma HalfwayDone(f: Frame, plan: Plan, g: Frame)
    requires Halfway(f, plan, g, Width(f))
    ensures g == Planned(f, plan)
  {
    var p := Planned(f, plan);
    assert forall i :: 0 <= i < Height(f) ==> g.rows[i] == p.rows[i];
    assert g.rows == p.rows;
  }

  lemma HalfwaySkip(f: Frame, plan: Plan, g: Frame, j: nat)
    requires Halfway(f, plan, g, j) && j < Width(f) && plan[j].None?
    ensures Halfway(f, plan, g, j + 1)
  {
  }

  lemma HalfwayFill(f: Frame, plan: Plan, g: Frame, j: nat, r: Replacement)
    requires Halfway(f, plan, g, j) && j < Width(f) && plan[j] == Some(r)
    ensures Halfway(f, plan, FillColumn(g, j, r), j + 1)
    ensures ColumnEntries(g, j, r) == ColumnEntries(f, j, r)
  {
    SameColumnSameEntries(f, g, j, r);
  }

  /** The loop from column `j` on ends in the reference frame and appends the
      reference messages of columns `j` onwards. */
  lemma {:induction false} PerColumnFillFrom(f: Frame, plan: Plan, g: Frame, j: nat)
    requires Halfway(f, plan, g, j)
    ensures PerColumnFill(g, plan, j).0 == Planned(f, plan)
    ensures PerColumnFill(g, plan, j).1 == Flatten(PlannedEntries(f, plan)[j..])
    decreases Width(f) - j
  {
    if j == Width(f) {
      HalfwayDone(f, plan, g);
    } else {
      FlattenStep(PlannedEntries(f, plan), j);
      match plan[j]
      case None =>
        HalfwaySkip(f, plan, g, j);
        PerColumnFillFrom(f, plan, g, j + 1);
      case Some(r) =>
        HalfwayFill(f, plan, g, j, r);
        PerColumnFillFrom(f, plan, FillColumn(g, j, r), j + 1);
    }
  }

  /** The column loop fills every planned column of the input and lists, in
      declared column order, the messages of each planned column of the input. */
  lemma PerColumnFillMeaning(f: Frame, plan: Plan)
    requires WellFormed(f) && |plan| == Width(f)
    ensures PerColumnFill(f, plan, 0).0 == Planned(f, plan)
    ensures PerColumnFill(f, plan, 0).1 == Flatten(PlannedEntries(f, plan))
  {
    PerColumnFillFrom(f, plan, f, 0);
    assert PlannedEntries(f, plan)[0..] == PlannedEntries(f, plan);
  }

  /** The messages of a column: one per missing cell of it, labelled with its
      row's index label, as many as the column's missing count, in row order. */
  lemma ColumnEntriesMeaning(f: Frame, j: nat, r: Replacement)
    requires WellFormed(f) && j < Width(f)
    ensures |ColumnEntries(f, j, r)| == MissingCounts(f)[j]
    ensures forall n :: 0 <= n < |ColumnEntries(f, j, r)| ==>
      ColumnEntries(f, j, r)[n].Filled? && ColumnEntries(f, j, r)[n].column == f.columns[j] && ColumnEntries(f, j, r)[n].with == r
    ensures forall i :: 0 <= i < Height(f) && f.rows[i][j].None? ==> Filled(f.index[i], f.columns[j], r) in ColumnEntries(f, j, r)
    ensures IncreasingLabels(f) ==>
      forall m, n :: 0 <= m < n < |ColumnEntries(f, j, r)| ==> ColumnEntries(f, j, r)[m].index < ColumnEntries(f, j, r)[n].index
  {
    ColumnEntriesCover(f, j, r);
    if IncreasingLabels(f) {
      SelectIncreasing(f.index, Where(ColumnMissing(f, j)));
    }
  }

  /** Every missing cell of the column has its message. */
  lemma ColumnEntriesCover(f: Frame, j: nat, r: Replacement)
    requires WellFormed(f) && j < Width(f)
    ensures forall i :: 0 <= i < Height(f) && f.rows[i][j].None? ==> Filled(f.index[i], f.columns[j], r) in ColumnEntries(f, j, r)
  {
    var es := ColumnEntries(f, j, r);
    var ps := Where(ColumnMissing(f, j));
    forall i | 0 <= i < Height(f) && f.rows[i][j].None?
      ensures Filled(f.index[i], f.columns[j], r) in es
    {
      assert ColumnMissing(f, j)[i];
      var n :| 0 <= n < |ps| && ps[n] == i;
      assert es[n] == Filled(f.index[i], f.columns[j], r);
    }
  }

  /** A column without missing cells yields no messages. */
  lemma NoMissingNoEntries(f: Frame, j: nat, r: Replacement)
    requires WellFormed(f) && j < Width(f)
    requires forall i :: 0 <= i < Height(f) ==> f.rows[i][j].Some?
    ensures ColumnEntries(f, j, r) == []
  {
    WhereCounts(ColumnMissing(f, j));
  }

  // ---------------------------------------------------------------- statistic fill

  /** Statistic fill, frame: a missing cell of a column with a (non-NaN)
      statistic takes that statistic; every other cell, the row count and the
      index labels stay as they were. */
  lemma StatFillFrame(f: Frame, stats: map<string, Stat>)
    requires WellFormed(f)
    ensures StatFill(f, stats).0.index == f.index && Height(StatFill(f, stats).0) == Height(f)
    ensures forall i, k :: 0 <= i < Height(f) && 0 <= k < Width(f) ==>
      StatFill(f, stats).0.rows[i][k] ==
        (if f.rows[i][k].None? && f.columns[k] in stats && stats[f.columns[k]].Finite?
         then Some(Num(stats[f.columns[k]].v))
         else f.rows[i][k])
  {
    PerColumnFillMeaning(f, StatPlan(f, stats));
  }

  /** Statistic fill, audit: the columns in declared order, and for each column
      that has a statistic its messages on the input (see `ColumnEntriesMeaning`);
      columns without a statistic contribute nothing. */
  lemma StatFillAudit(f: Frame, stats: map<string, Stat>)
    requires WellFormed(f)
    ensures StatFill(f, stats).1 == Flatten(StatEntries(f, stats))
  {
    PerColumnFillMeaning(f, StatPlan(f, stats));
    assert PlannedEntries(f, StatPlan(f, stats)) == StatEntries(f, stats);
  }

  /** Per column, in declared order: the messages of a column that has a
      statistic, read off the input; nothing for any other column. */
  function StatEntries(f: Frame, stats: map<string, Stat>): (ess: seq<seq<Entry>>)
    requires WellFormed(f)
    ensures |ess| == Width(f)
  {
    seq(Width(f), k requires 0 <= k < Width(f) =>
      if f.columns[k] in stats then ColumnEntries(f, k, WithStat(stats[f.columns[k]])) else [])
  }

  lemma StatFillCell(f: Frame, stats: map<string, Stat>, i: nat, k: nat)
    requires WellFormed(f) && i < Height(f) && k < Width(f)
    ensures StatFill(f, stats).0.rows[i][k].None? ==> f.rows[i][k].None?
    ensures f.columns[k] in stats && stats[f.columns[k]].Finite? ==> StatFill(f, stats).0.rows[i][k].Some?
  {
    StatFillFrame(f, stats);
    var g := StatFill(f, stats).0;
    assert g.rows[i][k] ==
      (if f.rows[i][k].None? && f.columns[k] in stats && stats[f.columns[k]].Finite?
       then Some(Num(stats[f.columns[k]].v))
       else f.rows[i][k]);
  }

  /** No column gains missing cells, and a column with a non-NaN statistic has none left. */
  lemma StatFillCounts(f: Frame, stats: map<string, Stat>)
    requires WellFormed(f)
    ensures forall k :: 0 <= k < Width(f) ==> MissingCounts(StatFill(f, stats).0)[k] <= MissingCounts(f)[k]
    ensures forall k :: 0 <= k < Width(f) && f.columns[k] in stats && stats[f.columns[k]].Finite? ==>
      MissingCounts(StatFill(f, stats).0)[k] == 0
  {
    var g := StatFill(f, stats).0;
    StatFillFrame(f, stats);
    forall k | 0 <= k < Width(f)
      ensures MissingCounts(g)[k] <= MissingCounts(f)[k]
      ensures f.columns[k] in stats && stats[f.columns[k]].Finite? ==> MissingCounts(g)[k] == 0
    {
      forall i | 0 <= i < Height(f) && ColumnMissing(g, k)[i]
        ensures ColumnMissing(f, k)[i]
      {
        StatFillCell(f, stats, i, k);
      }
      CountMonotone(ColumnMissing(g, k), ColumnMissing(f, k));
    }
  }

  /** When a NaN statistic only ever belongs to a column without any present
      value, a cell of a column with a statistic is left missing only if its
      whole column was missing in the input. */
  lemma StatFillLeavesOnlyEmptyColumns(f: Frame, stats: map<string, Stat>)
    requires WellFormed(f)
    requires forall k :: 0 <= k < Width(f) && f.columns[k] in stats && stats[f.columns[k]].NaN? ==>
      forall i :: 0 <= i < Height(f) ==> f.rows[i][k].None?
    ensures forall i, k :: 0 <= i < Height(f) && 0 <= k < Width(f) && f.columns[k] in stats ==>
      (StatFill(f, stats).0.rows[i][k].None? ==> forall p :: 0 <= p < Height(f) ==> f.rows[p][k].None?)
  {
    StatFillFrame(f, stats);
  }

  lemma {:induction false} FlattenEmpty<T>(ss: seq<seq<T>>)
    requires forall k :: 0 <= k < |ss| ==> ss[k] == []
    ensures Flatten(ss) == []
    decreases |ss|
  {
    if |ss| > 0 {
      FlattenEmpty(ss[1..]);
    }
  }

  /** Filling again by statistic yields no message when every column the second
      statistic covers had a non-NaN statistic the first time. */
  lemma StatFillIdempotent(f: Frame, stats: map<string, Stat>, again: map<string, Stat>)
    requires WellFormed(f)
    requires forall k :: 0 <= k < Width(f) && f.columns[k] in again ==>
      f.columns[k] in stats && stats[f.columns[k]].Finite?
    ensures StatFill(StatFill(f, stats).0, again).1 == []
  {
    var g := StatFill(f, stats).0;
    StatFillFrame(f, stats);
    var plan := StatPlan(g, again);
    PerColumnFillMeaning(g, plan);
    var ess := PlannedEntries(g, plan);
    forall k | 0 <= k < Width(g)
      ensures ess[k] == []
    {
      if plan[k].Some? {
        forall i | 0 <= i < Height(g)
          ensures g.rows[i][k].Some?
        {
          assert g.rows[i][k] ==
            (if f.rows[i][k].None? && f.columns[k] in stats && stats[f.columns[k]].Finite?
             then Some(Num(stats[f.columns[k]].v))
             else f.rows[i][k]);
        }
        NoMissingNoEntries(g, k, plan[k].value);
      }
    }
    FlattenEmpty(ess);
  }

  // ---------------------------------------------------------------- literal fill

  lemma FillAllComplete(f: Frame, lit: string)
    requires WellFormed(f)
    ensures Complete(FillAll(f, lit))
  {
  }

  lemma FillAllOfComplete(f: Frame, lit: string)
    requires WellFormed(f) && Complete(f)
    ensures FillAll(f, lit) == f
  {
    var g := FillAll(f, lit);
    assert forall i :: 0 <= i < Height(f) ==> g.rows[i] == f.rows[i];
    assert g.rows == f.rows;
  }

  /** On a frame without missing cells the literal loop does nothing. */
  lemma {:induction false} LiteralLoopOnComplete(f: Frame, lit: string, j: nat)
    requires WellFormed(f) && Complete(f) && j <= Width(f)
    ensures LiteralLoop(f, lit, j) == (f, [])
    decreases Width(f) - j
  {
    if j < Width(f) {
      FillAllOfComplete(f, lit);
      NoMissingNoEntries(f, j, WithLiteral(lit));
      LiteralLoopOnComplete(f, lit, j + 1);
      var rest := LiteralLoop(FillAll(f, lit), lit, j + 1);
      assert rest == (f, []);
      assert ColumnEntries(f, j, WithLiteral(lit)) + rest.1 == [];
      assert LiteralLoop(f, lit, j) == (rest.0, ColumnEntries(f, j, WithLiteral(lit)) + rest.1);
    }
  }

  /** Literal fill as written: the whole frame is filled during the first
      iteration, so the audit holds the messages of the first column only. */
  lemma LiteralFillAsWritten(f: Frame, lit: string)
    requires WellFormed(f)
    ensures LiteralFill(f, lit).0 == FillAll(f, lit)
    ensures LiteralFill(f, lit).1 == (if Width(f) == 0 then [] else ColumnEntries(f, 0, WithLiteral(lit)))
    ensures |LiteralFill(f, lit).1| == (if Width(f) == 0 then 0 else MissingCounts(f)[0])
  {
    if Width(f) > 0 {
      FillAllComplete(f, lit);
      LiteralLoopOnComplete(FillAll(f, lit), lit, 1);
    }
  }

  /** Literal fill, frame: no cell is missing afterwards, each missing cell
      holds the literal, present cells, row count and index labels are kept. */
  lemma LiteralFillFrame(f: Frame, lit: string)
    requires WellFormed(f)
    ensures Complete(LiteralFill(f, lit).0)
    ensures LiteralFill(f, lit).0.index == f.index && Height(LiteralFill(f, lit).0) == Height(f)
    ensures forall i, k :: 0 <= i < Height(f) && 0 <= k < Width(f) && f.rows[i][k].None? ==>
      LiteralFill(f, lit).0.rows[i][k] == Some(Text(lit))
    ensures forall i, k :: 0 <= i < Height(f) && 0 <= k < Width(f) && f.rows[i][k].Some? ==>
      LiteralFill(f, lit).0.rows[i][k] == f.rows[i][k]
    ensures forall k :: 0 <= k < Width(f) ==> MissingCounts(LiteralFill(f, lit).0)[k] == 0
  {
    LiteralFillAsWritten(f, lit);
    FillAllCells(f, lit);
    FillAllComplete(f, lit);
    CompleteCountsZero(FillAll(f, lit));
  }

  lemma FillAllCells(f: Frame, lit: string)
    requires WellFormed(f)
    ensures forall i, k :: 0 <= i < Height(f) && 0 <= k < Width(f) ==>
      FillAll(f, lit).rows[i][k] == (if f.rows[i][k].None? then Some(Text(lit)) else f.rows[i][k])
  {
  }

  lemma CompleteCountsZero(g: Frame)
    requires WellFormed(g) && Complete(g)
    ensures forall k :: 0 <= k < Width(g) ==> MissingCounts(g)[k] == 0
  {
    forall k | 0 <= k < Width(g)
      ensures MissingCounts(g)[k] == 0
    {
    }
  }

  /** Filling by any literal once more changes nothing and reports nothing. */
  lemma LiteralFillIdempotent(f: Frame, lit: string, again: string)
    requires WellFormed(f)
    ensures LiteralFill(LiteralFill(f, lit).0, again) == (LiteralFill(f, lit).0, [])
  {
    LiteralFillFrame(f, lit);
    LiteralLoopOnComplete(LiteralFill(f, lit).0, again, 0);
  }

  /** The discrepancy: with columns A, B and the one row (1, missing), the
      literal fills B's cell but the audit is empty. */
  lemma LiteralFillMissesLaterColumns()
    ensures var f := Frame(["A", "B"], [0], [[Some(Num(1.0)), None]]);
      && LiteralFill(f, "x").0.rows[0][1] == Some(Text("x"))
      && LiteralFill(f, "x").1 == []
  {
    var f := Frame(["A", "B"], [0], [[Some(Num(1.0)), None]]);
    LiteralFillAsWritten(f, "x");
    NoMissingNoEntries(f, 0, WithLiteral("x"));
  }

  /** The intended literal fill lists every missing cell of the input, column
      by column, and fills the frame exactly as the code as written does. */
  lemma LiteralFillPerColumnMeaning(f: Frame, lit: string)
    requires WellFormed(f)
    ensures LiteralFillPerColumn(f, lit).0 == LiteralFill(f, lit).0
    ensures LiteralFillPerColumn(f, lit).1 == Flatten(seq(Width(f), k requires 0 <= k < Width(f) =>
      ColumnEntries(f, k, WithLiteral(lit))))
    ensures |LiteralFillPerColumn(f, lit).1| == Sum(MissingCounts(f))
  {
    LiteralPlanFrame(f, lit);
    var ess := LiteralPlanEntries(f, lit);
    FlattenLength(ess, MissingCounts(f));
  }

  /** Filling every column by the literal plan is filling the whole frame. */
  lemma LiteralPlanFrame(f: Frame, lit: string)
    requires WellFormed(f)
    ensures LiteralFillPerColumn(f, lit).0 == LiteralFill(f, lit).0
  {
    PerColumnFillMeaning(f, LiteralPlan(f, lit));
    LiteralFillAsWritten(f, lit);
    PlannedLiteral(f, lit);
  }

  /** The reference fill of the literal plan is the whole-frame fill. */
  lemma PlannedLiteral(f: Frame, lit: string)
    requires WellFormed(f)
    ensures Planned(f, LiteralPlan(f, lit)) == FillAll(f, lit)
  {
    var p := Planned(f, LiteralPlan(f, lit));
    assert forall i :: 0 <= i < Height(f) ==> p.rows[i] == FillAll(f, lit).rows[i];
  }

  /** The literal plan's audit is every column's messages, column by column. */
  lemma LiteralPlanEntries(f: Frame, lit: string) returns (ess: seq<seq<Entry>>)
    requires WellFormed(f)
    ensures ess == seq(Width(f), k requires 0 <= k < Width(f) => ColumnEntries(f, k, WithLiteral(lit)))
    ensures LiteralFillPerColumn(f, lit).1 == Flatten(ess)
    ensures forall k :: 0 <= k < Width(f) ==> |ess[k]| == MissingCounts(f)[k]
  {
    PerColumnFillMeaning(f, LiteralPlan(f, lit));
    PlannedLiteralEntries(f, lit);
    ess := PlannedEntries(f, LiteralPlan(f, lit));
  }

  /** The reference audit of the literal plan is every column's messages. */
  lemma PlannedLiteralEntries(f: Frame, lit: string)
    requires WellFormed(f)
    ensures PlannedEntries(f, LiteralPlan(f, lit)) ==
      seq(Width(f), k requires 0 <= k < Width(f) => ColumnEntries(f, k, WithLiteral(lit)))
  {
    var ess := PlannedEntries(f, LiteralPlan(f, lit));
    assert forall k :: 0 <= k < Width(f) ==> ess[k] == ColumnEntries(f, k, WithLiteral(lit));
  }

  lemma {:induction false} FlattenLength<T>(ss: seq<seq<T>>, lens: seq<nat>)
    requires |ss| == |lens|
    requires forall k :: 0 <= k < |ss| ==> |ss[k]| == lens[k]
    ensures |Flatten(ss)| == Sum(lens)
    decreases |ss|
  {
    if |ss| > 0 {
      FlattenLength(ss[1..], lens[1..]);
    }
  }

  // ---------------------------------------------------------------- drop

  /** The rows before position `n`, with their labels. */
  function Prefix(f: Frame, n: nat): (g: Frame)
    requires WellFormed(f) && n <= Height(f)
    ensures WellFormed(g)
  {
    Frame(f.columns, f.index[..n], f.rows[..n])
  }

  lemma SelectPrefix<T>(s: seq<T>, n: nat, ps: seq<nat>)
    requires n <= |s|
    requires forall m :: 0 <= m < |ps| ==> ps[m] < n
    ensures Select(s, ps) == Select(s[..n], ps)
  {
  }

  lemma SelectSnoc<T>(s: seq<T>, ps: seq<nat>, last: nat)
    requires last < |s|
    requires forall m :: 0 <= m < |ps| ==> ps[m] < |s|
    ensures Select(s, ps + [last]) == Select(s, ps) + [s[last]]
  {
  }

  /** The rows kept among the first `last` rows are those kept by the prefix frame. */
  lemma KeepPrefix(f: Frame, last: nat)
    requires WellFormed(f) && last < Height(f)
    ensures Not(RowMissing(f))[..last] == Not(RowMissing(Prefix(f, last)))
  {
  }

  /** `dropna` keeps exactly the rows without a missing cell, in their
      original order and with their original index labels. */
  lemma {:induction false} DropNaSelects(f: Frame)
    requires WellFormed(f)
    ensures DropNa(f).rows == Select(f.rows, Where(Not(RowMissing(f))))
    ensures DropNa(f).index == Select(f.index, Where(Not(RowMissing(f))))
    decreases |f.rows|
  {
    if |f.rows| > 0 {
      var last := |f.rows| - 1;
      var f' := Prefix(f, last);
      var g' := DropNa(f');
      DropNaSelects(f');
      var keep := Not(RowMissing(f));
      KeepPrefix(f, last);
      var ps := Where(keep[..last]);
      assert Where(keep) == ps + (if keep[last] then [last] else []);
      SelectPrefix(f.rows, last, ps);
      SelectPrefix(f.index, last, ps);
      assert g'.rows == Select(f.rows, ps) && g'.index == Select(f.index, ps);
      if keep[last] {
        SelectSnoc(f.rows, ps, last);
        SelectSnoc(f.index, ps, last);
        assert DropNa(f) == Frame(f.columns, g'.index + [f.index[last]], g'.rows + [f.rows[last]]);
      } else {
        assert Where(keep) == ps;
        assert DropNa(f) == g';
      }
    }
  }

  /** Every row of the input without a missing cell survives the drop. */
  lemma DropKeepsCompleteRows(f: Frame)
    requires WellFormed(f)
    ensures forall i :: 0 <= i < Height(f) && !RowHasMissing(f.rows[i]) ==> f.rows[i] in DropNa(f).rows
  {
    DropNaSelects(f);
    var keep := Where(Not(RowMissing(f)));
    forall i | 0 <= i < Height(f) && !RowHasMissing(f.rows[i])
      ensures f.rows[i] in DropNa(f).rows
    {
      assert Not(RowMissing(f))[i];
      var n :| 0 <= n < |keep| && keep[n] == i;
      assert DropNa(f).rows[n] == f.rows[i];
    }
  }

  /** Surviving and dropped rows add up to the input's rows. */
  lemma DropCount(f: Frame)
    requires WellFormed(f)
    ensures Height(DropNa(f)) + CountTrue(RowMissing(f)) == Height(f)
  {
    DropNaSelects(f);
    WhereCounts(Not(RowMissing(f)));
    CountSplit(RowMissing(f));
  }

  /** A frame none of whose rows holds a missing cell has no missing cell in any column. */
  lemma NoMissingRows(g: Frame)
    requires WellFormed(g)
    requires forall n :: 0 <= n < |g.rows| ==> !RowHasMissing(g.rows[n])
    ensures Complete(g)
    ensures forall k :: 0 <= k < Width(g) ==> MissingCounts(g)[k] == 0
  {
    forall i, k | 0 <= i < |g.rows| && 0 <= k < |g.rows[i]|
      ensures g.rows[i][k].Some?
    {
      assert !RowHasMissing(g.rows[i]);
    }
    CompleteCountsZero(g);
  }

  /** Drop, frame: exactly the rows without a missing cell survive, in order
      and with their labels; the row count drops by the number of messages,
      and no column has a missing cell left. */
  lemma DropFrame(f: Frame)
    requires WellFormed(f)
    ensures var keep := Where(Not(RowMissing(f)));
      && DropRows(f).0.rows == Select(f.rows, keep)
      && DropRows(f).0.index == Select(f.index, keep)
    ensures Height(DropRows(f).0) == Height(f) - |DropRows(f).1|
    ensures forall i :: 0 <= i < Height(f) && !RowHasMissing(f.rows[i]) ==> f.rows[i] in DropRows(f).0.rows
    ensures Complete(DropRows(f).0)
    ensures forall k :: 0 <= k < Width(f) ==> MissingCounts(DropRows(f).0)[k] == 0
  {
    DropNaSelects(f);
    DropCount(f);
    WhereCounts(RowMissing(f));
    DropKeepsCompleteRows(f);
    NoMissingRows(DropNa(f));
  }

  /** Every row holding a missing cell has its message. */
  lemma DropAuditCovers(f: Frame)
    requires WellFormed(f)
    ensures forall i :: 0 <= i < Height(f) && RowHasMissing(f.rows[i]) ==> RowDropped(f.index[i]) in DropRows(f).1
  {
    var audit := DropRows(f).1;
    var ps := Where(RowMissing(f));
    forall i | 0 <= i < Height(f) && RowHasMissing(f.rows[i])
      ensures RowDropped(f.index[i]) in audit
    {
      assert RowMissing(f)[i];
      var n :| 0 <= n < |ps| && ps[n] == i;
      assert audit[n] == RowDropped(f.index[i]);
    }
  }

  /** Drop, audit: one message per row holding a missing cell, with that
      row's original label, in row order, and nothing else. */
  lemma DropAudit(f: Frame)
    requires WellFormed(f)
    ensures |DropRows(f).1| == CountTrue(RowMissing(f))
    ensures forall n :: 0 <= n < |DropRows(f).1| ==> DropRows(f).1[n].RowDropped?
    ensures forall i :: 0 <= i < Height(f) && RowHasMissing(f.rows[i]) ==> RowDropped(f.index[i]) in DropRows(f).1
    ensures forall n :: 0 <= n < |DropRows(f).1| ==>
      exists i :: 0 <= i < Height(f) && RowHasMissing(f.rows[i]) && DropRows(f).1[n] == RowDropped(f.index[i])
    ensures IncreasingLabels(f) ==>
      forall m, n :: 0 <= m < n < |DropRows(f).1| ==> DropRows(f).1[m].index < DropRows(f).1[n].index
  {
    WhereCounts(RowMissing(f));
    DropAuditCovers(f);
    DropAuditSound(f);
  }

  /** Every drop message names a row that held a missing cell. */
  lemma DropAuditSound(f: Frame)
    requires WellFormed(f)
    ensures forall n :: 0 <= n < |DropRows(f).1| ==>
      exists i :: 0 <= i < Height(f) && RowHasMissing(f.rows[i]) && DropRows(f).1[n] == RowDropped(f.index[i])
  {
    var ps := Where(RowMissing(f));
    WhereCounts(RowMissing(f));
    forall n | 0 <= n < |DropRows(f).1|
      ensures exists i :: 0 <= i < Height(f) && RowHasMissing(f.rows[i]) && DropRows(f).1[n] == RowDropped(f.index[i])
    {
      var i := ps[n];
      assert 0 <= i < Height(f) && RowMissing(f)[i];
      assert RowHasMissing(f.rows[i]) && DropRows(f).1[n] == RowDropped(f.index[i]);
    }
  }

  /** `dropna` leaves a frame without missing cells as it is. */
  lemma {:induction false} DropNaOfComplete(f: Frame)
    requires WellFormed(f)
    requires forall i :: 0 <= i < Height(f) ==> !RowHasMissing(f.rows[i])
    ensures DropNa(f) == f
    decreases |f.rows|
  {
    if |f.rows| > 0 {
      var last := |f.rows| - 1;
      DropNaOfComplete(Prefix(f, last));
      assert f.index[..last] + [f.index[last]] == f.index;
      assert f.rows[..last] + [f.rows[last]] == f.rows;
    }
  }

  /** Dropping once more changes nothing and reports nothing. */
  lemma DropIdempotent(f: Frame)
    requires WellFormed(f)
    ensures DropRows(DropRows(f).0) == (DropRows(f).0, [])
  {
    var g := DropNa(f);
    DropNaOfComplete(g);
    WhereCounts(RowMissing(g));
    assert DropRows(g).1 == [];
  }
}
